=== FILE: README.md ===
# Station connectivity core of the N8 smartconfig Wi-Fi application

A Dafny model of `user/user_wifi.c`, the part of an ESP8266 application that
keeps the station connected. It covers these pieces:

- **Starting the connection** (`wifi_connect`). Either join with compiled-in
  credentials, or start an ESPTOUCH/AirKiss smartconfig session bounded by a
  20 s timeout.
- **The timeout handler** (`wifi_connect_timer_cb`):
  - it stops the session;
  - it falls back to a disconnect/connect unless the station already has an
    address;
  - it hands over to steady-state monitoring.
- **Polling the link** (`wifi_check_timer_cb`). Every 2000 ms while the
  station has an IP and every 500 ms while it does not. An edge flag guards
  the block that runs once per reconnection. In the code that block logs
  "wifi connected" and holds a `// TODO` for the application. The model
  records it as one `ConnectedAction` call.
- **Driving the status LED.** Held low while connected, blinking otherwise.

The model lives in these files:

- `sdk.dfy` (module `Sdk`): the slice of the SDK the core touches.
  - The station status enumeration, the four software timers, and the GPIO
    line level.
  - Every command the core issues, as an `Effect`, and what each does to
    the SDK-side `Device` state.
  - Two ordering predicates over effect logs: `DisarmsBeforeArming` and
    `Before`.
- `user_wifi.dfy` (module `UserWifi`): the file's globals as one immutable
  `WifiState` record, and one pure function per C function.
  - Each function returns a `Step`: the new state plus the SDK calls it made,
    in order. It is built from the same sequence of calls as the C body.
  - The station status and the IP info each handler reads are inputs.
  - The compile-time choice between `WIFI_SSID_ENABLE`, `SMARTCONFIG_ENABLE`
    and neither is the `Mode` parameter of `WifiConnect`.
- `wifi_properties.dfy` (module `WifiProperties`): properties of one handler
  call:
  - which SDK calls it makes and in what order;
  - which ones it makes exactly when;
  - that every timer arm follows a disarm of the same timer.
- `tick_runs.dfy` (module `TickRuns`): runs of the periodic callbacks over a
  sequence of status readings:
  - the "connected" action runs once per GOT_IP run;
  - where the edge flag and the check cadence end up;
  - the LED level as a closed form.
- `scheduler.dfy` (module `Scheduler`): timer expiries chosen by the SDK in
  any order.
  - An invariant on how each timer can be set up.
  - While smartconfig runs, its timeout is pending.
  - The steady state (polling plus the status LED) is never left once
    reached.
  - Which calls of the file's public entry points keep the invariant.
    `wifi_status_led_init` during a session does not.

## Model

| member | source | states |
|---|---|---|
| UserWifi.Boot | N8-smartconfig_wifi_app/user/user_wifi.c:49-56 | Power-on state: every timer disarmed, no session running, stored address 0. The edge flag starts set, as its `static` initialiser at line 148 says. The LED level and the station switches are whatever the SDK holds |
| UserWifi.LedTick | N8-smartconfig_wifi_app/user/user_wifi.c:66-79 | With GOT_IP the line goes low (0); otherwise it goes to the opposite of its previous level. Exactly one GPIO write, nothing else changes |
| UserWifi.StatusLedInit | N8-smartconfig_wifi_app/user/user_wifi.c:81-90 | The status LED callback runs on the connect timer as a 200 ms repeating timer, disarmed first. No other state changes |
| UserWifi.SmartconfigLedTick | N8-smartconfig_wifi_app/user/user_wifi.c:97-100 | The line toggles with one GPIO write; nothing else changes |
| UserWifi.SmartconfigLedInit | N8-smartconfig_wifi_app/user/user_wifi.c:106-112 | The smartconfig LED timer becomes a 1000 ms repeating blink, disarmed first. No other state changes |
| UserWifi.SmartconfigLedStop | N8-smartconfig_wifi_app/user/user_wifi.c:118-121 | Only the smartconfig LED timer is disarmed |
| UserWifi.SmartconfigInit | N8-smartconfig_wifi_app/user/user_wifi.c:126-136 | Starts an ESPTOUCH+AirKiss session, marks it running and drives the line high. Timers and the station switches are untouched |
| UserWifi.CheckInit | N8-smartconfig_wifi_app/user/user_wifi.c:173-182 | Reconnect policy on, then the check timer disarmed and re-armed one-shot at the given interval. Nothing else changes |
| UserWifi.CheckTick | N8-smartconfig_wifi_app/user/user_wifi.c:146-166 | The next check is one-shot at 2000 ms after GOT_IP and 500 ms otherwise. The edge flag ends clear after GOT_IP and set after anything else. The connected action runs exactly when GOT_IP meets a set flag. Nothing else changes |
| UserWifi.StopSmartconfigIfRunning | N8-smartconfig_wifi_app/user/user_wifi.c:197-202 | `smartconfig_stop` is issued exactly when the flag was running, and the flag is stopped afterwards |
| UserWifi.FallbackReconnect | N8-smartconfig_wifi_app/user/user_wifi.c:204-211 | No call when the status is GOT_IP with a non-zero stored address; otherwise disconnect then connect |
| UserWifi.TimeoutCleanup | N8-smartconfig_wifi_app/user/user_wifi.c:192-202 | The timeout and smartconfig LED timers end disarmed and the flag stopped. The address read is stored |
| UserWifi.TimeoutRearm | N8-smartconfig_wifi_app/user/user_wifi.c:213-217 | The check is pending one-shot at 2000 ms and the status LED at 200 ms repeating. Reconnect policy and auto-connect are on |
| UserWifi.ConnectTimeout | N8-smartconfig_wifi_app/user/user_wifi.c:189-218 | Whatever the outcome, it ends with: the session stopped, the smartconfig LED disarmed, the check at 2000 ms, the status LED at 200 ms repeating, both switches on and the read address stored. The LED level and the edge flag are kept |
| UserWifi.ConnectTimerInit | N8-smartconfig_wifi_app/user/user_wifi.c:224-230 | One 20 s one-shot timeout, disarmed first |
| UserWifi.StartStatic | N8-smartconfig_wifi_app/user/user_wifi.c:257-262 | Credentials set and connect issued. The check is armed at 2000 ms and the status LED at 200 ms; reconnect policy is on |
| UserWifi.StartSmartconfig | N8-smartconfig_wifi_app/user/user_wifi.c:265-271 | Reconnect policy and auto-connect off, the session running, the line high, and the 20 s timeout pending |
| UserWifi.WifiConnect | N8-smartconfig_wifi_app/user/user_wifi.c:252-273 | The first call is always a disconnect. Then the static-credentials, smartconfig or no-provisioning outcome, each with the timers and switches it leaves |
| WifiProperties.CheckInitCallsDisarmFirst | N8-smartconfig_wifi_app/user/user_wifi.c:173-182 | The check timer is armed only right after being disarmed, so at most one check is pending |
| WifiProperties.CheckTickCalls | N8-smartconfig_wifi_app/user/user_wifi.c:146-166 | The connected action is issued if and only if the tick sees GOT_IP with the flag set, and then once. A check tick never issues a radio command |
| WifiProperties.ConnectTimeoutStopsRunningSmartconfig | N8-smartconfig_wifi_app/user/user_wifi.c:197-202 | The timeout issues `smartconfig_stop` once if and only if a session was running, and leaves the flag stopped |
| WifiProperties.ConnectTimeoutStopIsIdempotent | N8-smartconfig_wifi_app/user/user_wifi.c:197-202 | A second timeout after the first issues no stop |
| WifiProperties.ConnectTimeoutFallback | N8-smartconfig_wifi_app/user/user_wifi.c:194-211 | Disconnect and connect are each issued if and only if the station does not report GOT_IP with a non-zero address. When issued, disconnect comes first |
| WifiProperties.ConnectTimeoutOrdering | N8-smartconfig_wifi_app/user/user_wifi.c:189-218 | The smartconfig LED is stopped before the status LED and the check are armed. Every arm follows a disarm of the same timer. The last two calls turn reconnecting and auto-connect on |
| WifiProperties.StaticStartOrdering | N8-smartconfig_wifi_app/user/user_wifi.c:255-262 | Disconnect, set credentials, connect, arm the check at 2000 ms, arm the LED at 200 ms, in that order. Every arm follows a disarm |
| WifiProperties.SmartconfigStartOrdering | N8-smartconfig_wifi_app/user/user_wifi.c:265-271 | Disconnect, reconnect policy off, auto-connect off, smartconfig start, line high, arm the 20 s timeout, in that order. Exactly one timeout is armed, after its disarm |
| TickRuns.RunChecksState | N8-smartconfig_wifi_app/user/user_wifi.c:146-166 | After a run of check ticks, the edge flag is set exactly when the last reading was not GOT_IP. The pending check follows the last reading (2000 or 500 ms). Nothing outside the check path changes |
| TickRuns.RunChecksEdges | N8-smartconfig_wifi_app/user/user_wifi.c:148-165 | Over any run, the connected action runs as many times as there are GOT_IP runs that start after a non-GOT_IP reading, or at the start if the flag was set |
| TickRuns.RunChecksNoRadio | N8-smartconfig_wifi_app/user/user_wifi.c:146-182 | No run of check ticks issues disconnect or connect |
| TickRuns.ConnectedActionOnce | N8-smartconfig_wifi_app/user/user_wifi.c:148-160 | Becoming connected with the edge flag set, then staying connected over any number of ticks, runs the action exactly once |
| TickRuns.RunLedLevel | N8-smartconfig_wifi_app/user/user_wifi.c:66-79 | After any run of LED ticks the level is 0 plus one toggle per reading after the last GOT_IP. With no GOT_IP reading it is the starting level toggled once per tick. So repeated connected ticks keep it at 0 |
| TickRuns.RunLedFrame | N8-smartconfig_wifi_app/user/user_wifi.c:66-79 | A run of LED ticks changes nothing but the line level. Its log has exactly one entry per tick, and the entry for tick i is the GPIO write of the level the line has after that tick |
| TickRuns.RunBlinkLevel | N8-smartconfig_wifi_app/user/user_wifi.c:97-100 | After k smartconfig blinks the level is the start level plus k, mod 2; nothing else changes |
| Scheduler.FireInv | N8-smartconfig_wifi_app/user/user_wifi.c:146-230 | Whichever timer expires, the timer shapes stay those the file sets up. `g_wifi_led_timer` stays unused. A running session keeps its timeout pending. The flag and the stored address change only on the connect timer, and the address then becomes the one read |
| Scheduler.FireMonitoring | N8-smartconfig_wifi_app/user/user_wifi.c:146-218 | Once the check is pending and the status LED runs on the connect timer, no expiry ends either |
| Scheduler.TimeoutReachesMonitoring | N8-smartconfig_wifi_app/user/user_wifi.c:189-218 | The timeout of a running session reaches the steady state, stops the session and stores the address read |
| Scheduler.StoredIpReadBack | N8-smartconfig_wifi_app/user/user_wifi.c:59-62 | `get_station_ip` returns the address the last timeout read. Check ticks, LED ticks and `wifi_connect` leave it unchanged |
| Scheduler.RunFiresStationIp | N8-smartconfig_wifi_app/user/user_wifi.c:59-62 | After any expiries, `get_station_ip` returns either the address held before or the address some connect-timer expiry read |
| Scheduler.CheckInitInv | N8-smartconfig_wifi_app/user/user_wifi.c:173-182 | A call of `wifi_check_init` from outside keeps the smartconfig timeout pending. It keeps the invariant exactly when the period is 2000 or 500 ms, and then it keeps the steady state |
| Scheduler.SmartconfigLedInv | N8-smartconfig_wifi_app/user/user_wifi.c:106-121 | Starting or stopping the smartconfig blink at any time keeps the invariant and the steady state |
| Scheduler.StatusLedInitInv | N8-smartconfig_wifi_app/user/user_wifi.c:81-90 | A call of `wifi_status_led_init` keeps the invariant exactly when no session is running. During a session it replaces the 20 s timeout |
| Scheduler.RunFiresNoTimeout | N8-smartconfig_wifi_app/user/user_wifi.c:146-218 | Once the connect timer no longer holds the timeout, no expiry arms it again. No expiry then changes the smartconfig flag or auto-connect |
| Scheduler.StrandedSession | N8-smartconfig_wifi_app/user/user_wifi.c:81-90 | `wifi_status_led_init` called during a session started at power-on breaks the invariant. The session then stays running and auto-connect stays off, whatever expiries follow |
| Scheduler.RunFiresInv | N8-smartconfig_wifi_app/user/user_wifi.c:146-230 | The invariant holds after any sequence of expiries |
| Scheduler.RunFiresMonitoring | N8-smartconfig_wifi_app/user/user_wifi.c:146-218 | The steady state holds after any sequence of expiries once reached |
| Scheduler.WifiConnectInv | N8-smartconfig_wifi_app/user/user_wifi.c:252-273 | Static credentials, from a state with no session running (the only one that mode can meet), reach the steady state at once. Smartconfig starts a session with its timeout pending, also when called again during a session. The invariant holds in every mode |
| Scheduler.BootThenRun | N8-smartconfig_wifi_app/user/user_wifi.c:252-273 | From power-on, `wifi_connect` followed by any expiries keeps the invariant. With static credentials it keeps the steady state. With smartconfig, either the session still runs with its 20 s timeout pending or the steady state holds |
| Scheduler.RunFiresRecovering | N8-smartconfig_wifi_app/user/user_wifi.c:189-218 | From a state where a session runs with its timeout pending, or the steady state holds, every sequence of expiries stays in one of the two |
| Scheduler.BootSmartconfigTimeout | N8-smartconfig_wifi_app/user/user_wifi.c:265-271 | From power-on in smartconfig mode the session runs, and the first expiry of the timeout reaches the steady state |

## Left out

- SDK internals. Each `os_timer_*`, `wifi_station_*`, `wifi_get_ip_info`,
  `smartconfig_*` and GPIO call is a recorded effect, or an input for what
  the core reads. The SDK state modelled is the timers, which call the core
  back, and the line level, which `GPIO_REV` reads back (line 43). It also
  includes the reconnect-policy and auto-connect switches. The core only
  sets those, and the contracts state their final values.
- `os_timer_setfn` is not a separate effect. The callback it installs is
  part of the `TimerArm` effect that follows it.
- `GPIO_INPUT_GET` on the output pin is taken to read back the last level
  written. The hardware read is not visible.
- Real time and the firing order of timers. The SDK picks which timer expires
  next, as an input to `Scheduler.Fire`. Callbacks run atomically.
  - A one-shot timer is no longer pending when its callback starts.
  - A repeating timer keeps its period and callback.
- `smartconfig_done` and the rest of the smartconfig session are not in
  `user_wifi.c`; presumably they live in `user_smartconfig.c`, which is not
  part of this model. Nothing in `user_wifi.c` calls
  `user_smartconfig_led_timer_init`.
  - `Scheduler` therefore starts with the blink timer disarmed.
  - Calls of the blink init and stop from there are covered one at a time
    by `Scheduler.SmartconfigLedInv`.
- `debug`/`os_printf` logging. The log line at line 157 is part of the
  `ConnectedAction` effect.
- `Scheduler.RunFires` runs contain timer expiries only. The public entry
  points `wifi_check_init`, `wifi_status_led_init`,
  `user_smartconfig_led_timer_init` and `user_smartconfig_led_timer_stop` can
  also be called from other files at any time. Those calls are treated one
  at a time instead. Calling `wifi_status_led_init` during a smartconfig
  session cancels the 20 s timeout. The session then never stops
  (`Scheduler.StrandedSession`). So the claim that a running session has its
  timeout pending holds only while no such call is made.
- UserWifi.StartStatic: the credentials are recorded whole.
  `user_set_station_config` copies a fixed 32-byte SSID and a 64-byte
  password into the SDK struct and clears `bssid_set`. That copy has no
  logic of its own and its truncation is not modelled.
- UserWifi.ConnectTimeout: only the `ip.addr` field of `wifi_get_ip_info` is
  an input. The mask and gateway are stored by the C code but never read in
  this file.
- The status is read before `smartconfig_stop` in the C code. Because the
  status is an input here, the order of that read does not appear.
- `g_wifi_led_timer` is declared but never armed; `Scheduler.Shapes` keeps it
  disarmed.

## Notes on the code as written

- The comment at lines 19-20 says the link is checked every 2 s. The comment
  at lines 143-144 adds that the check runs every 500 ms while disconnected.
  The static-credentials start (line 261) and the timeout handler (line 213)
  both arm the first check at 2000 ms.
- The comment at lines 71-73 says the LED stays on (low) while connected and
  blinks otherwise. The code does this with one 200 ms repeating timer whose
  callback drives the line low or toggles it. The timer keeps running while
  connected.
- The status LED runs on `g_wifi_connect_timer` (lines 85-88), the timer the
  20 s timeout also uses. `g_wifi_led_timer` (line 50) is never armed.
- Smartconfig start drives the line high (line 134). No blink timer is armed
  in this file. `user_smartconfig_led_timer_init` has no caller here.
- The address is stored only by the timeout handler (line 194). It is never
  cleared on disconnection. The LED callback has its own read of it
  commented out (line 68).
- `wifi_connect` issues a disconnect in every mode (line 255), including when
  neither macro is defined. `user_smartconfig_init` does not check whether a
  session is already running.

=== FILE: scheduler.dfy ===
/** The timer callbacks of `user_wifi.c` driven by the SDK's software
    timers. Which timer fires next, and when, is the SDK's choice; the model
    takes it as an input and proves the properties that hold whatever the
    order: the timer shapes the core can ever set up, the smartconfig
    timeout that is always pending while a session runs, and the steady
    state (polling plus status LED) that, once reached, is never left.
    Calls of the file's public entry points from other files are treated one
    at a time: which of them keep those properties, and how a call of
    `wifi_status_led_init` during a session strands it. */
module Scheduler {
  import opened Sdk
  import opened UserWifi

  /** What the callback of a firing timer reads from the SDK. */
  datatype Readings = Readings(status: StationStatus, ipInfo: u32)

  /** One timer expiry chosen by the SDK. */
  datatype Event = Event(id: TimerId, readings: Readings)

  /** The callback installed with `os_timer_setfn`, run on the state. */
  function Dispatch(s: WifiState, cb: Callback, rd: Readings): Step {
    match cb
    case CheckCb => CheckTick(s, rd.status)
    case LedCb => LedTick(s, rd.status)
    case ConnectCb => ConnectTimeout(s, rd.ipInfo, rd.status)
    case SmartconfigLedCb => SmartconfigLedTick(s)
  }

  /** Expiry of timer `id`: a disarmed timer does nothing; a one-shot timer
      is no longer pending when its callback starts; a repeating timer stays
      pending with the same period and callback. */
  function Fire(s: WifiState, id: TimerId, rd: Readings): Step {
    match s.dev.timers.Get(id)
    case Disarmed => Local(s)
    case Armed(period, repeat, cb) =>
      if repeat then Dispatch(s, cb, rd)
      else Dispatch(s.(dev := s.dev.(timers := s.dev.timers.Set(id, Disarmed))), cb, rd)
  }

  /** Expiries in the order the SDK delivers them. */
  function RunFires(s: WifiState, evs: seq<Event>): Step
    decreases |evs|
  {
    if |evs| == 0 then Local(s)
    else
      var a := RunFires(s, evs[..|evs| - 1]);
      var e := evs[|evs| - 1];
      Then(a, Fire(a.state, e.id, e.readings))
  }

  // ---------------------------------------------------------------------
  // Invariants

  /** The only ways the core ever sets up each timer. */
  predicate Shapes(s: WifiState) {
    var t := s.dev.timers;
    && (t.check == Disarmed || t.check == Armed(WIFI_CHECK_TIMER_INTERVAL, false, CheckCb) || t.check == Armed(WIFI_CHECK_RETRY_INTERVAL, false, CheckCb))
    && t.led == Disarmed
    && (t.connect == Disarmed || t.connect == Armed(WIFI_LED_INTERVAL, true, LedCb) || t.connect == Armed(SMARTCONFIG_WAIT_TIME, false, ConnectCb))
    && (t.smartconfigLed == Disarmed || t.smartconfigLed == Armed(SMARTCONFIG_LED_INTERVAL, true, SmartconfigLedCb))
  }

  /** While smartconfig runs, its 20 s timeout is pending, so the session
      cannot outlive it. */
  predicate Pending(s: WifiState) {
    s.smartconfigFlag == IsRunning ==> s.dev.timers.connect == Armed(SMARTCONFIG_WAIT_TIME, false, ConnectCb)
  }

  predicate Inv(s: WifiState) {
    Shapes(s) && Pending(s)
  }

  /** The steady state: the link check is polling and the status LED timer
      runs on the connect timer. */
  predicate Monitoring(s: WifiState) {
    && Inv(s)
    && s.dev.timers.check.Armed?
    && s.dev.timers.connect == Armed(WIFI_LED_INTERVAL, true, LedCb)
  }

  lemma BootInv(led: Level, reconnectPolicy: bool, autoConnect: bool)
    ensures Inv(Boot(led, reconnectPolicy, autoConnect))
    ensures !Monitoring(Boot(led, reconnectPolicy, autoConnect))
  {
  }

  // ---------------------------------------------------------------------
  // One expiry

  lemma DispatchInv(s: WifiState, cb: Callback, rd: Readings)
    requires Shapes(s)
    requires cb != ConnectCb ==> Pending(s)
    ensures Inv(Dispatch(s, cb, rd).state)
  {
  }

  /** Whichever timer fires, the invariant survives; the smartconfig flag
      and the stored address change only when the connect timer fires. */
  lemma FireInv(s: WifiState, id: TimerId, rd: Readings)
    requires Inv(s)
    ensures Inv(Fire(s, id, rd).state)
    ensures Fire(s, id, rd).state.smartconfigFlag != s.smartconfigFlag ==> id == ConnectTimer
    ensures Fire(s, id, rd).state.ipAddr != s.ipAddr ==> id == ConnectTimer && Fire(s, id, rd).state.ipAddr == rd.ipInfo
  {
    match s.dev.timers.Get(id)
    case Disarmed =>
    case Armed(period, repeat, cb) =>
      var s1 := if repeat then s else s.(dev := s.dev.(timers := s.dev.timers.Set(id, Disarmed)));
      assert Shapes(s1);
      assert cb != ConnectCb ==> Pending(s1);
      DispatchInv(s1, cb, rd);
  }

  lemma FireMonitoring(s: WifiState, id: TimerId, rd: Readings)
    requires Monitoring(s)
    ensures Monitoring(Fire(s, id, rd).state)
  {
    FireInv(s, id, rd);
  }

  /** The smartconfig timeout brings any session to the steady state, with
      the session stopped and the address it read stored. */
  lemma TimeoutReachesMonitoring(s: WifiState, rd: Readings)
    requires Inv(s)
    requires s.smartconfigFlag == IsRunning
    ensures Monitoring(Fire(s, ConnectTimer, rd).state)
    ensures Fire(s, ConnectTimer, rd).state.smartconfigFlag == IsStop
    ensures GetStationIp(Fire(s, ConnectTimer, rd).state) == rd.ipInfo
  {
    FireInv(s, ConnectTimer, rd);
  }

  /** `get_station_ip` returns what the last timeout read; link checks,
      LED ticks and `wifi_connect` leave it alone. */
  lemma StoredIpReadBack(s: WifiState, ipInfo: u32, status: StationStatus, mode: Mode)
    ensures GetStationIp(ConnectTimeout(s, ipInfo, status).state) == ipInfo
    ensures GetStationIp(CheckTick(s, status).state) == GetStationIp(s)
    ensures GetStationIp(LedTick(s, status).state) == GetStationIp(s)
    ensures GetStationIp(SmartconfigLedTick(s).state) == GetStationIp(s)
    ensures GetStationIp(WifiConnect(s, mode).state) == GetStationIp(s)
  {
  }

  // ---------------------------------------------------------------------
  // Runs

  lemma {:induction false} RunFiresInv(s: WifiState, evs: seq<Event>)
    requires Inv(s)
    ensures Inv(RunFires(s, evs).state)
    decreases |evs|
  {
    if |evs| > 0 {
      var a := RunFires(s, evs[..|evs| - 1]);
      RunFiresInv(s, evs[..|evs| - 1]);
      FireInv(a.state, evs[|evs| - 1].id, evs[|evs| - 1].readings);
    }
  }

  /** Once polling and the status LED run, they keep running whatever the
      SDK does next. */
  lemma {:induction false} RunFiresMonitoring(s: WifiState, evs: seq<Event>)
    requires Monitoring(s)
    ensures Monitoring(RunFires(s, evs).state)
    decreases |evs|
  {
    if |evs| > 0 {
      var a := RunFires(s, evs[..|evs| - 1]);
      RunFiresMonitoring(s, evs[..|evs| - 1]);
      FireMonitoring(a.state, evs[|evs| - 1].id, evs[|evs| - 1].readings);
    }
  }

  /** Whatever the SDK delivers, `get_station_ip` returns either the address
      held before the run or one that an expiry of the connect timer read. */
  lemma {:induction false} RunFiresStationIp(s: WifiState, evs: seq<Event>)
    requires Inv(s)
    ensures var ip := GetStationIp(RunFires(s, evs).state);
      || ip == GetStationIp(s)
      || exists i :: 0 <= i < |evs| && evs[i].id == ConnectTimer && evs[i].readings.ipInfo == ip
    decreases |evs|
  {
    if |evs| > 0 {
      var p := evs[..|evs| - 1];
      var e := evs[|evs| - 1];
      var a := RunFires(s, p);
      RunFiresStationIp(s, p);
      RunFiresInv(s, p);
      FireInv(a.state, e.id, e.readings);
      var ip := GetStationIp(RunFires(s, evs).state);
      if ip != GetStationIp(a.state) {
        assert evs[|evs| - 1].id == ConnectTimer && evs[|evs| - 1].readings.ipInfo == ip;
      } else if ip != GetStationIp(s) {
        var i :| 0 <= i < |p| && p[i].id == ConnectTimer && p[i].readings.ipInfo == ip;
        assert evs[i] == p[i];
      }
    }
  }

  // ---------------------------------------------------------------------
  // Entry points other files call

  /** `wifi_check_init` is public. It keeps a pending timeout pending, and it
      keeps the invariant exactly when called with one of the two periods
      this file itself uses. */
  lemma CheckInitInv(s: WifiState, interval: u16)
    requires Inv(s)
    ensures Pending(CheckInit(s, interval).state)
    ensures Inv(CheckInit(s, interval).state)
        <==> interval as nat == WIFI_CHECK_TIMER_INTERVAL || interval as nat == WIFI_CHECK_RETRY_INTERVAL
    ensures Monitoring(s) && Inv(CheckInit(s, interval).state) ==> Monitoring(CheckInit(s, interval).state)
  {
  }

  /** `user_smartconfig_led_timer_init` and `user_smartconfig_led_timer_stop`
      are public. Either keeps the invariant and the steady state, whenever it
      is called. */
  lemma SmartconfigLedInv(s: WifiState)
    requires Inv(s)
    ensures Inv(SmartconfigLedInit(s).state) && Inv(SmartconfigLedStop(s).state)
    ensures Monitoring(s) ==> Monitoring(SmartconfigLedInit(s).state) && Monitoring(SmartconfigLedStop(s).state)
  {
  }

  /** `wifi_status_led_init` is public too, but it reuses the connect timer.
      It keeps the invariant exactly when no session is running; during a
      session it replaces the pending 20 s timeout with the LED callback. */
  lemma StatusLedInitInv(s: WifiState)
    requires Inv(s)
    ensures Inv(StatusLedInit(s).state) <==> s.smartconfigFlag == IsStop
    ensures s.smartconfigFlag == IsStop && s.dev.timers.check.Armed? ==> Monitoring(StatusLedInit(s).state)
  {
  }

  /** A state whose connect timer does not hold the smartconfig timeout. */
  predicate NoTimeout(s: WifiState) {
    Shapes(s) && s.dev.timers.connect != Armed(SMARTCONFIG_WAIT_TIME, false, ConnectCb)
  }

  /** Without the timeout pending, no expiry arms it again, and none touches
      the smartconfig flag or auto-connect. */
  lemma FireNoTimeout(s: WifiState, id: TimerId, rd: Readings)
    requires NoTimeout(s)
    ensures NoTimeout(Fire(s, id, rd).state)
    ensures Fire(s, id, rd).state.smartconfigFlag == s.smartconfigFlag
    ensures Fire(s, id, rd).state.dev.autoConnect == s.dev.autoConnect
  {
  }

  lemma {:induction false} RunFiresNoTimeout(s: WifiState, evs: seq<Event>)
    requires NoTimeout(s)
    ensures NoTimeout(RunFires(s, evs).state)
    ensures RunFires(s, evs).state.smartconfigFlag == s.smartconfigFlag
    ensures RunFires(s, evs).state.dev.autoConnect == s.dev.autoConnect
    decreases |evs|
  {
    if |evs| > 0 {
      var a := RunFires(s, evs[..|evs| - 1]);
      RunFiresNoTimeout(s, evs[..|evs| - 1]);
      FireNoTimeout(a.state, evs[|evs| - 1].id, evs[|evs| - 1].readings);
    }
  }

  /** `wifi_status_led_init` called during a smartconfig session started at
      power-on: the session is never stopped and auto-connect stays off,
      whatever expiries follow. */
  lemma StrandedSession(led: Level, reconnectPolicy: bool, autoConnect: bool, evs: seq<Event>)
    ensures var c := WifiConnect(Boot(led, reconnectPolicy, autoConnect), Smartconfig).state;
      && Inv(c) && c.smartconfigFlag == IsRunning
      && !Inv(StatusLedInit(c).state)
      && RunFires(StatusLedInit(c).state, evs).state.smartconfigFlag == IsRunning
      && !RunFires(StatusLedInit(c).state, evs).state.dev.autoConnect
  {
    var c := WifiConnect(Boot(led, reconnectPolicy, autoConnect), Smartconfig).state;
    BootInv(led, reconnectPolicy, autoConnect);
    WifiConnectInv(Boot(led, reconnectPolicy, autoConnect), Smartconfig);
    StatusLedInitInv(c);
    RunFiresNoTimeout(StatusLedInit(c).state, evs);
  }

  /** The recovery guarantee of the smartconfig path: either the session is
      still running with its timeout pending, or the steady state holds. */
  predicate Recovering(s: WifiState) {
    Inv(s) && (s.smartconfigFlag == IsRunning || Monitoring(s))
  }

  lemma FireRecovering(s: WifiState, id: TimerId, rd: Readings)
    requires Recovering(s)
    ensures Recovering(Fire(s, id, rd).state)
  {
    if Monitoring(s) {
      FireMonitoring(s, id, rd);
    } else {
      FireInv(s, id, rd);
      if id == ConnectTimer {
        TimeoutReachesMonitoring(s, rd);
      }
    }
  }

  lemma {:induction false} RunFiresRecovering(s: WifiState, evs: seq<Event>)
    requires Recovering(s)
    ensures Recovering(RunFires(s, evs).state)
    decreases |evs|
  {
    if |evs| > 0 {
      var a := RunFires(s, evs[..|evs| - 1]);
      RunFiresRecovering(s, evs[..|evs| - 1]);
      FireRecovering(a.state, evs[|evs| - 1].id, evs[|evs| - 1].readings);
    }
  }

  // ---------------------------------------------------------------------
  // Start-up

  /** `wifi_connect`: with static credentials, from a state with no session
      running, it reaches the steady state at once; with smartconfig it
      starts a session whose timeout is pending, even when called again
      during a session; with neither it leaves the timers alone. The
      invariant holds in every case. Static credentials during a session
      cannot occur: the mode is fixed at compile time, and only smartconfig
      mode starts a session. */
  lemma WifiConnectInv(s: WifiState, mode: Mode)
    requires Inv(s)
    requires mode.StaticCredentials? ==> s.smartconfigFlag == IsStop
    ensures Inv(WifiConnect(s, mode).state)
    ensures mode.StaticCredentials? ==> Monitoring(WifiConnect(s, mode).state)
    ensures mode.Smartconfig? ==>
              WifiConnect(s, mode).state.smartconfigFlag == IsRunning
              && WifiConnect(s, mode).state.dev.timers.connect == Armed(SMARTCONFIG_WAIT_TIME, false, ConnectCb)
  {
  }

  /** From power-on, `wifi_connect` followed by any expiries keeps the
      invariant, and with static credentials the steady state. With
      smartconfig, the session is either still running with its timeout
      pending or over with the steady state reached. */
  lemma BootThenRun(led: Level, reconnectPolicy: bool, autoConnect: bool, mode: Mode, evs: seq<Event>)
    ensures var c := WifiConnect(Boot(led, reconnectPolicy, autoConnect), mode).state;
      && Inv(RunFires(c, evs).state)
      && (mode.StaticCredentials? ==> Monitoring(RunFires(c, evs).state))
      && (mode.Smartconfig? ==> Recovering(RunFires(c, evs).state))
  {
    var c := WifiConnect(Boot(led, reconnectPolicy, autoConnect), mode).state;
    BootInv(led, reconnectPolicy, autoConnect);
    WifiConnectInv(Boot(led, reconnectPolicy, autoConnect), mode);
    RunFiresInv(c, evs);
    if mode.StaticCredentials? {
      RunFiresMonitoring(c, evs);
    }
    if mode.Smartconfig? {
      RunFiresRecovering(c, evs);
    }
  }

  lemma BootSmartconfigTimeout(led: Level, reconnectPolicy: bool, autoConnect: bool, rd: Readings)
    ensures var c := WifiConnect(Boot(led, reconnectPolicy, autoConnect), Smartconfig).state;
      && c.smartconfigFlag == IsRunning
      && Monitoring(Fire(c, ConnectTimer, rd).state)
  {
    var c := WifiConnect(Boot(led, reconnectPolicy, autoConnect), Smartconfig).state;
    BootInv(led, reconnectPolicy, autoConnect);
    WifiConnectInv(Boot(led, reconnectPolicy, autoConnect), Smartconfig);
    TimeoutReachesMonitoring(c, rd);
  }
}

=== FILE: sdk.dfy ===
/** The slice of the ESP8266 non-OS SDK that the station-connectivity core
    calls into: fixed-width integers, the station status enumeration, software
    timers, the status GPIO line, and the station/smartconfig commands.

    The SDK's internals are not visible. Every command the core issues is
    recorded as an `Effect`; what it reads (station status, IP info, the GPIO
    level) is an input. A `Device` record keeps the timers, which call the
    core back, and the GPIO level, which `GPIO_REV` reads back. It also keeps
    the reconnect-policy and auto-connect switches: the core only sets those,
    and the contracts state their final values. `Apply` says what each
    effect does to the record. Effect logs are related by two ordering predicates:
    `DisarmsBeforeArming` and `Before`. */
module Sdk {

  newtype u16 = x: int | 0 <= x < 0x1_0000
  newtype u32 = x: int | 0 <= x < 0x1_0000_0000

  /** A digital output level on a GPIO pin. */
  type Level = x: int | 0 <= x <= 1

  /** `wifi_station_get_connect_status()`; the core only compares it with `StationGotIp`. */
  datatype StationStatus =
    | StationIdle
    | StationConnecting
    | StationWrongPassword
    | StationNoApFound
    | StationConnectFail
    | StationGotIp

  /** Argument of `smartconfig_set_type`. */
  datatype SmartconfigType = ScEsptouch | ScAirkiss | ScEsptouchAirkiss

  /** The four `os_timer_t` globals of the core. */
  datatype TimerId = CheckTimer | LedTimer | ConnectTimer | SmartconfigLedTimer

  /** The callbacks the core installs with `os_timer_setfn`. */
  datatype Callback = CheckCb | LedCb | ConnectCb | SmartconfigLedCb

  /** One software timer: either disarmed or pending with its period (ms),
      its repeat bit and the callback `os_timer_setfn` installed. */
  datatype Timer = Disarmed | Armed(period: nat, repeat: bool, cb: Callback)

  datatype Timers = Timers(check: Timer, led: Timer, connect: Timer, smartconfigLed: Timer)
  {
    function Get(id: TimerId): Timer {
      match id
      case CheckTimer => check
      case LedTimer => led
      case ConnectTimer => connect
      case SmartconfigLedTimer => smartconfigLed
    }

    /** Replaces one timer and keeps the other three. */
    function Set(id: TimerId, t: Timer): (r: Timers)
      ensures r.Get(id) == t
      ensures forall other :: other != id ==> r.Get(other) == Get(other)
    {
      match id
      case CheckTimer => this.(check := t)
      case LedTimer => this.(led := t)
      case ConnectTimer => this.(connect := t)
      case SmartconfigLedTimer => this.(smartconfigLed := t)
    }
  }

  const AllDisarmed: Timers := Timers(Disarmed, Disarmed, Disarmed, Disarmed)

  /** The SDK-side state the core's commands change: timers and GPIO level,
      which the core is called back by or reads back, and the two station
      switches, which it only sets. */
  datatype Device = Device(timers: Timers, led: Level, reconnectPolicy: bool, autoConnect: bool)

  /** One call from the core into the SDK, in the order it is made.
      `ConnectedAction` stands for the block `wifi_check_timer_cb` runs when
      the station has just become connected: a "wifi connected" log line and
      a `// TODO` left for the application's own work. */
  datatype Effect =
    | Disconnect
    | Connect
    | SetStationConfig(ssid: string, password: string)
    | SetReconnectPolicy(on: bool)
    | SetAutoConnect(on: bool)
    | SmartconfigSetType(kind: SmartconfigType)
    | SmartconfigStart
    | SmartconfigStop
    | TimerDisarm(id: TimerId)
    | TimerArm(id: TimerId, period: nat, repeat: bool, cb: Callback)
    | GpioSet(level: Level)
    | ConnectedAction

  /** What one effect does to the observable device state. `TimerArm` stands
      for the `os_timer_setfn` + `os_timer_arm` pair the core always issues
      together. */
  function Apply(d: Device, e: Effect): Device {
    match e
    case SetReconnectPolicy(on) => d.(reconnectPolicy := on)
    case SetAutoConnect(on) => d.(autoConnect := on)
    case TimerDisarm(id) => d.(timers := d.timers.Set(id, Disarmed))
    case TimerArm(id, period, repeat, cb) => d.(timers := d.timers.Set(id, Armed(period, repeat, cb)))
    case GpioSet(level) => d.(led := level)
    case _ => d
  }

  /** Every arm of a timer comes immediately after a disarm of that same
      timer, so an arm never overwrites a pending fire. */
  predicate DisarmsBeforeArming(effs: seq<Effect>) {
    forall i :: 0 <= i < |effs| && effs[i].TimerArm? ==>
      0 < i && effs[i - 1] == TimerDisarm(effs[i].id)
  }

  predicate StartsWithArm(effs: seq<Effect>) {
    |effs| > 0 && effs[0].TimerArm?
  }

  lemma DisarmsBeforeArmingAppend(a: seq<Effect>, b: seq<Effect>)
    requires DisarmsBeforeArming(a) && DisarmsBeforeArming(b)
    requires !StartsWithArm(b)
    ensures DisarmsBeforeArming(a + b)
  {
    var ab := a + b;
    forall i | 0 <= i < |ab| && ab[i].TimerArm?
      ensures 0 < i && ab[i - 1] == TimerDisarm(ab[i].id)
    {
      if i >= |a| {
        assert ab[i] == b[i - |a|];
        assert i - |a| > 0;
        assert ab[i - 1] == b[i - 1 - |a|];
      }
    }
  }

  /** Every occurrence of `a` in the log comes before every occurrence of
      `b`, and both occur. */
  predicate Before(effs: seq<Effect>, a: Effect, b: Effect) {
    a in effs && b in effs &&
    forall i, j :: 0 <= i < |effs| && 0 <= j < |effs| && effs[i] == a && effs[j] == b ==> i < j
  }

  lemma BeforeAppend(x: seq<Effect>, y: seq<Effect>, a: Effect, b: Effect)
    requires a in x && a !in y
    requires b in y && b !in x
    ensures Before(x + y, a, b)
  {
    var xy := x + y;
    forall k | |x| <= k < |xy|
      ensures xy[k] != a
    {
      assert xy[k] == y[k - |x|];
    }
    forall k | 0 <= k < |x|
      ensures xy[k] != b
    {
      assert xy[k] == x[k];
    }
  }

  /** An ordering that holds inside one block of a log survives putting
      other blocks, free of both effects, around it. */
  lemma BeforeFrame(x: seq<Effect>, y: seq<Effect>, z: seq<Effect>, a: Effect, b: Effect)
    requires Before(y, a, b)
    requires a !in x && b !in x && a !in z && b !in z
    ensures Before(x + y + z, a, b)
  {
    var xyz := x + y + z;
    forall k | 0 <= k < |x|
      ensures xyz[k] != a && xyz[k] != b
    {
      assert xyz[k] == x[k];
    }
    forall k | |x| + |y| <= k < |xyz|
      ensures xyz[k] != a && xyz[k] != b
    {
      assert xyz[k] == z[k - |x| - |y|];
    }
    forall k | |x| <= k < |x| + |y|
      ensures xyz[k] == y[k - |x|]
    {
    }
  }
}

=== FILE: tick_runs.dfy ===
/** Runs of the periodic callbacks of `user_wifi.c` against a sequence of
    station statuses, one status read per tick, and what such a run adds up
    to: how often the "connected" action runs, where the edge flag ends, how
    the check is rescheduled, and which level the status LED is left at. */
module TickRuns {
  import opened Sdk
  import opened UserWifi
  import opened WifiProperties

  // ---------------------------------------------------------------------
  // Link check runs

  /** `wifi_check_timer_cb` run once per status in `sts`, oldest first. */
  function RunChecks(s: WifiState, sts: seq<StationStatus>): Step
    decreases |sts|
  {
    if |sts| == 0 then Local(s)
    else
      var a := RunChecks(s, sts[..|sts| - 1]);
      Then(a, CheckTick(a.state, sts[|sts| - 1]))
  }

  lemma RunChecksSnoc(s: WifiState, sts: seq<StationStatus>)
    requires |sts| > 0
    ensures var a := RunChecks(s, sts[..|sts| - 1]);
      RunChecks(s, sts).effects == a.effects + CheckTick(a.state, sts[|sts| - 1]).effects
  {
  }

  /** How many times the "connected" action appears in a call log. */
  function Actions(effs: seq<Effect>): nat
  {
    if |effs| == 0 then 0
    else Actions(effs[..|effs| - 1]) + (if effs[|effs| - 1] == ConnectedAction then 1 else 0)
  }

  /** `Actions` is the multiplicity of the action in the log. */
  lemma {:induction false} ActionsIsCount(effs: seq<Effect>)
    ensures Actions(effs) == multiset(effs)[ConnectedAction]
    decreases |effs|
  {
    if |effs| > 0 {
      var p := effs[..|effs| - 1];
      assert effs == p + [effs[|effs| - 1]];
      assert multiset(effs) == multiset(p) + multiset{effs[|effs| - 1]};
      ActionsIsCount(p);
    }
  }

  lemma {:induction false} ActionsAppend(x: seq<Effect>, y: seq<Effect>)
    ensures Actions(x + y) == Actions(x) + Actions(y)
    decreases |y|
  {
    if |y| > 0 {
      assert (x + y)[..|x + y| - 1] == x + y[..|y| - 1];
      ActionsAppend(x, y[..|y| - 1]);
    } else {
      assert x + y == x;
    }
  }

  lemma {:induction false} ActionsNone(effs: seq<Effect>)
    requires ConnectedAction !in effs
    ensures Actions(effs) == 0
    decreases |effs|
  {
    if |effs| > 0 {
      assert effs == effs[..|effs| - 1] + [effs[|effs| - 1]];
      ActionsNone(effs[..|effs| - 1]);
    }
  }

  /** Tick `i` is the first GOT_IP of a run of GOT_IP ticks. Before the first
      tick, `initial` says whether the core still counts as disconnected. */
  predicate IsRunStart(initial: bool, sts: seq<StationStatus>, i: nat)
    requires i < |sts|
  {
    sts[i] == StationGotIp && (if i == 0 then initial else sts[i - 1] != StationGotIp)
  }

  /** How many of the first `n` ticks start a GOT_IP run. */
  function CountStarts(initial: bool, sts: seq<StationStatus>, n: nat): (c: nat)
    requires n <= |sts|
    ensures c <= n
  {
    if n == 0 then 0
    else CountStarts(initial, sts, n - 1) + (if IsRunStart(initial, sts, n - 1) then 1 else 0)
  }

  /** Only the ticks a count looks at matter to it. */
  lemma {:induction false} CountStartsPrefix(initial: bool, sts: seq<StationStatus>, m: nat, n: nat)
    requires n <= m <= |sts|
    ensures CountStarts(initial, sts[..m], n) == CountStarts(initial, sts, n)
  {
    if n > 0 {
      CountStartsPrefix(initial, sts, m, n - 1);
      if n - 1 > 0 {
        assert sts[..m][n - 2] == sts[n - 2];
      }
      assert sts[..m][n - 1] == sts[n - 1];
    }
  }

  /** Counting all ticks is counting all but the last, plus the last. */
  lemma CountStartsLast(initial: bool, sts: seq<StationStatus>)
    requires |sts| > 0
    ensures var p := sts[..|sts| - 1];
      CountStarts(initial, sts, |sts|)
      == CountStarts(initial, p, |p|) + (if IsRunStart(initial, sts, |sts| - 1) then 1 else 0)
  {
    CountStartsPrefix(initial, sts, |sts| - 1, |sts| - 1);
  }

  /** The value the edge flag holds after the ticks `sts`. */
  function EdgeAfter(initial: bool, sts: seq<StationStatus>): bool {
    if |sts| == 0 then initial else sts[|sts| - 1] != StationGotIp
  }

  /** Over any run of check ticks the edge flag ends set exactly when the
      last reading was not GOT_IP; the check timer, after at least one tick,
      is pending one-shot at the period the last reading calls for (2000 ms
      with an IP, 500 ms without); and the smartconfig flag, the stored
      address, the LED level and every other timer are untouched. */
  lemma {:induction false} RunChecksState(s: WifiState, sts: seq<StationStatus>)
    ensures var r := RunChecks(s, sts);
      && r.state.fromDisconnectToConnect == EdgeAfter(s.fromDisconnectToConnect, sts)
      && (|sts| > 0 ==>
            r.state.dev.timers.check == Armed(CheckPeriod(sts[|sts| - 1]), false, CheckCb))
      && r.state.smartconfigFlag == s.smartconfigFlag
      && r.state.ipAddr == s.ipAddr
      && r.state.dev.led == s.dev.led
      && r.state.dev.autoConnect == s.dev.autoConnect
      && r.state.dev.timers == s.dev.timers.(check := r.state.dev.timers.check)
    decreases |sts|
  {
    if |sts| > 0 {
      RunChecksState(s, sts[..|sts| - 1]);
    }
  }

  /** The last tick of a run fires the action exactly when it starts a
      GOT_IP run. */
  lemma RunChecksFires(s: WifiState, sts: seq<StationStatus>)
    requires |sts| > 0
    ensures var p := sts[..|sts| - 1];
      (sts[|sts| - 1] == StationGotIp && RunChecks(s, p).state.fromDisconnectToConnect)
      <==> IsRunStart(s.fromDisconnectToConnect, sts, |sts| - 1)
  {
    var p := sts[..|sts| - 1];
    RunChecksState(s, p);
    if |p| > 0 {
      assert p[|p| - 1] == sts[|sts| - 2];
    }
  }

  /** A run of check ticks issues no radio command. */
  lemma {:induction false} RunChecksNoRadio(s: WifiState, sts: seq<StationStatus>)
    ensures Disconnect !in RunChecks(s, sts).effects && Connect !in RunChecks(s, sts).effects
    decreases |sts|
  {
    if |sts| > 0 {
      var a := RunChecks(s, sts[..|sts| - 1]);
      var t := CheckTick(a.state, sts[|sts| - 1]);
      assert RunChecks(s, sts).effects == a.effects + t.effects by {
        RunChecksSnoc(s, sts);
      }
      assert Disconnect !in a.effects && Connect !in a.effects by {
        RunChecksNoRadio(s, sts[..|sts| - 1]);
      }
      assert Disconnect !in t.effects && Connect !in t.effects by {
        CheckTickCalls(a.state, sts[|sts| - 1]);
      }
    }
  }

  /** One more check tick adds one action exactly when it fires. */
  lemma CheckTickAdds(a: Step, status: StationStatus)
    ensures Actions(Then(a, CheckTick(a.state, status)).effects)
         == Actions(a.effects) + (if status == StationGotIp && a.state.fromDisconnectToConnect then 1 else 0)
  {
    var t := CheckTick(a.state, status);
    ActionsAppend(a.effects, t.effects);
    var c := CheckInitCalls(CheckPeriod(status));
    ActionsNone(c);
    if status == StationGotIp && a.state.fromDisconnectToConnect {
      assert t.effects == c + [ConnectedAction];
      ActionsAppend(c, [ConnectedAction]);
      assert [ConnectedAction][..0] == [];
    } else {
      assert t.effects == c;
    }
  }

  /** Over any run of check ticks the "connected" action runs exactly once
      per run of GOT_IP readings that follows a non-GOT_IP reading (or the
      start, if the edge flag was set). */
  lemma {:induction false} RunChecksEdges(s: WifiState, sts: seq<StationStatus>)
    ensures Actions(RunChecks(s, sts).effects) == CountStarts(s.fromDisconnectToConnect, sts, |sts|)
    decreases |sts|
  {
    if |sts| > 0 {
      var p := sts[..|sts| - 1];
      var a := RunChecks(s, p);
      assert RunChecks(s, sts) == Then(a, CheckTick(a.state, sts[|sts| - 1]));
      RunChecksEdges(s, p);
      CheckTickAdds(a, sts[|sts| - 1]);
      RunChecksFires(s, sts);
      CountStartsLast(s.fromDisconnectToConnect, sts);
    }
  }


  /** Connecting once and staying connected runs the action exactly once,
      however many ticks follow. */
  lemma ConnectedActionOnce(s: WifiState, sts: seq<StationStatus>)
    requires s.fromDisconnectToConnect
    requires |sts| > 0
    requires forall i | 0 <= i < |sts| :: sts[i] == StationGotIp
    ensures multiset(RunChecks(s, sts).effects)[ConnectedAction] == 1
  {
    RunChecksEdges(s, sts);
    ActionsIsCount(RunChecks(s, sts).effects);
    AllGotIpCount(s.fromDisconnectToConnect, sts, |sts|);
  }

  lemma {:induction false} AllGotIpCount(initial: bool, sts: seq<StationStatus>, n: nat)
    requires initial
    requires 0 < n <= |sts|
    requires forall i | 0 <= i < |sts| :: sts[i] == StationGotIp
    ensures CountStarts(initial, sts, n) == 1
  {
    if n > 1 {
      AllGotIpCount(initial, sts, n - 1);
    }
  }

  // ---------------------------------------------------------------------
  // Status LED runs

  /** `wifi_led_timer_cb` run once per status in `sts`. */
  function RunLed(s: WifiState, sts: seq<StationStatus>): Step
    decreases |sts|
  {
    if |sts| == 0 then Local(s)
    else
      var a := RunLed(s, sts[..|sts| - 1]);
      Then(a, LedTick(a.state, sts[|sts| - 1]))
  }

  /** How many readings after the last GOT_IP were not GOT_IP. */
  function Trailing(sts: seq<StationStatus>): (n: nat)
    ensures n <= |sts|
    ensures StationGotIp !in sts ==> n == |sts|
  {
    if |sts| == 0 then 0
    else if sts[|sts| - 1] == StationGotIp then 0
    else
      assert sts == sts[..|sts| - 1] + [sts[|sts| - 1]];
      Trailing(sts[..|sts| - 1]) + 1
  }

  /** The LED level after a run of LED ticks, in closed form: held low by
      any GOT_IP reading, then toggled once per later reading; if no reading
      was GOT_IP, toggled once per tick from where it started. */
  lemma {:induction false} RunLedLevel(s: WifiState, sts: seq<StationStatus>)
    ensures RunLed(s, sts).state.dev.led == ((if StationGotIp in sts then 0 else s.dev.led) + Trailing(sts)) % 2
    decreases |sts|
  {
    if |sts| > 0 {
      var p := sts[..|sts| - 1];
      RunLedLevel(s, p);
      assert StationGotIp in sts <==> StationGotIp in p || sts[|sts| - 1] == StationGotIp by {
        assert sts == p + [sts[|sts| - 1]];
      }
    }
  }

  /** A run of LED ticks changes nothing but the line level, and its log is
      one GPIO write per tick: the `i`-th call writes the level the line has
      after the first `i + 1` readings. */
  lemma {:induction false} RunLedFrame(s: WifiState, sts: seq<StationStatus>)
    ensures RunLed(s, sts).state == s.(dev := s.dev.(led := RunLed(s, sts).state.dev.led))
    ensures |RunLed(s, sts).effects| == |sts|
    ensures forall i | 0 <= i < |sts| :: RunLed(s, sts).effects[i] == GpioSet(RunLed(s, sts[..i + 1]).state.dev.led)
    decreases |sts|
  {
    if |sts| > 0 {
      var p := sts[..|sts| - 1];
      var a := RunLed(s, p);
      var r := RunLed(s, sts);
      RunLedFrame(s, p);
      assert r.effects == a.effects + [GpioSet(r.state.dev.led)];
      forall i | 0 <= i < |sts|
        ensures r.effects[i] == GpioSet(RunLed(s, sts[..i + 1]).state.dev.led)
      {
        if i < |p| {
          assert p[..i + 1] == sts[..i + 1];
        } else {
          assert sts[..i + 1] == sts;
        }
      }
    }
  }


  /** `smartconfig_led_timer_cb` run `k` times. */
  function RunBlink(s: WifiState, k: nat): Step
  {
    if k == 0 then Local(s)
    else
      var a := RunBlink(s, k - 1);
      Then(a, SmartconfigLedTick(a.state))
  }

  /** The smartconfig blink alternates the line: after `k` ticks it is back
      where it started exactly when `k` is even, and nothing else changed. */
  lemma {:induction false} RunBlinkLevel(s: WifiState, k: nat)
    ensures RunBlink(s, k).state.dev.led == (s.dev.led + k) % 2
    ensures RunBlink(s, k).state == s.(dev := s.dev.(led := RunBlink(s, k).state.dev.led))
  {
    if k > 0 {
      RunBlinkLevel(s, k - 1);
    }
  }
}

=== FILE: user_wifi.dfy ===
/** The station-connectivity state machine of `user_wifi.c`.

    The C file keeps its state in file-scope globals and one function-local
    `static`; here that state is one immutable `WifiState` record. Each timer
    callback and entry point is a pure function from the state and what it
    reads from the SDK (station status, IP address) to a `Step`: the new state
    plus the SDK calls it made, in order. Every SDK call goes through `Issue`,
    so the recorded calls and the device state cannot drift apart; handlers
    are written as the same sequence of calls as the C functions, chained with
    `Then`. The call sequence of each handler is also named on its own
    (`...Calls`), so that orderings can be proved about it without the state. */
module UserWifi {
  import opened Sdk

  /** WIFI_CHECK_TIMER_INTERVAL: poll period while the station has an IP. */
  const WIFI_CHECK_TIMER_INTERVAL: nat := 2000
  /** The literal poll period used while the station has no IP. */
  const WIFI_CHECK_RETRY_INTERVAL: nat := 500
  /** WIFI_LED_INTERVAL: period of the status LED timer. */
  const WIFI_LED_INTERVAL: nat := 200
  /** SMARTCONFIG_WAIT_TIME: how long smartconfig runs before the timeout handler. */
  const SMARTCONFIG_WAIT_TIME: nat := 20000
  /** Period of the smartconfig LED blink timer. */
  const SMARTCONFIG_LED_INTERVAL: nat := 1000

  /** `g_smartconfig_running_flag`: IS_STOP (0) or IS_RUNNING (1). */
  datatype RunFlag = IsStop | IsRunning

  /** All state of the core:
      - `dev`: the SDK-side timers, LED level and station switches;
      - `smartconfigFlag`: `g_smartconfig_running_flag`;
      - `fromDisconnectToConnect`: the static edge flag of the check
        callback (1 is `true`);
      - `ipAddr`: `g_ipConfig.ip.addr`. */
  datatype WifiState = WifiState(
    dev: Device,
    smartconfigFlag: RunFlag,
    fromDisconnectToConnect: bool,
    ipAddr: u32)

  /** The outcome of one handler: the new state and the SDK calls made, oldest first. */
  datatype Step = Step(state: WifiState, effects: seq<Effect>)

  /** The compile-time choice in `wifi_connect`: `WIFI_SSID_ENABLE` with its
      credentials, `SMARTCONFIG_ENABLE`, or neither macro defined. */
  datatype Mode =
    | StaticCredentials(ssid: string, password: string)
    | Smartconfig
    | NoProvisioning

  /** State at power-on: C zero-initialises the globals, the edge flag starts
      at 1 and no timer is armed. The LED level and the station switches are
      whatever the SDK holds, so they are parameters. */
  function Boot(led: Level, reconnectPolicy: bool, autoConnect: bool): (r: WifiState)
    ensures forall id :: r.dev.timers.Get(id) == Disarmed
    ensures r.smartconfigFlag == IsStop && r.fromDisconnectToConnect
    ensures GetStationIp(r) == 0
    ensures r.dev.led == led && r.dev.reconnectPolicy == reconnectPolicy && r.dev.autoConnect == autoConnect
  {
    WifiState(Device(AllDisarmed, led, reconnectPolicy, autoConnect), IsStop, true, 0)
  }

  /** One SDK call: its effect on the device, recorded. */
  function Issue(s: WifiState, e: Effect): Step {
    Step(s.(dev := Apply(s.dev, e)), [e])
  }

  /** Sequential composition: `b` is run on the state `a` produced. */
  function Then(a: Step, b: Step): Step {
    Step(b.state, a.effects + b.effects)
  }

  /** A change to the core's own variables only; no SDK call. */
  function Local(s: WifiState): Step {
    Step(s, [])
  }

  /** `get_station_ip`: the address last read by the connect-timeout handler. */
  function GetStationIp(s: WifiState): u32 {
    s.ipAddr
  }

  // ---------------------------------------------------------------------
  // The SDK call sequences of the handlers

  function CheckInitCalls(interval: nat): seq<Effect> {
    [SetReconnectPolicy(true), TimerDisarm(CheckTimer), TimerArm(CheckTimer, interval, false, CheckCb)]
  }

  const StatusLedInitCalls: seq<Effect> :=
    [TimerDisarm(ConnectTimer), TimerArm(ConnectTimer, WIFI_LED_INTERVAL, true, LedCb)]

  const SmartconfigLedInitCalls: seq<Effect> :=
    [TimerDisarm(SmartconfigLedTimer), TimerArm(SmartconfigLedTimer, SMARTCONFIG_LED_INTERVAL, true, SmartconfigLedCb)]

  const SmartconfigInitCalls: seq<Effect> :=
    [SmartconfigSetType(ScEsptouchAirkiss), SmartconfigStart, GpioSet(1)]

  const ConnectTimerInitCalls: seq<Effect> :=
    [TimerDisarm(ConnectTimer), TimerArm(ConnectTimer, SMARTCONFIG_WAIT_TIME, false, ConnectCb)]

  function StopCalls(wasRunning: bool): seq<Effect> {
    if wasRunning then [SmartconfigStop] else []
  }

  function FallbackCalls(connected: bool): seq<Effect> {
    if connected then [] else [Disconnect, Connect]
  }

  function CleanupCalls(wasRunning: bool): seq<Effect> {
    [TimerDisarm(ConnectTimer), TimerDisarm(SmartconfigLedTimer)] + StopCalls(wasRunning)
  }

  const RearmCalls: seq<Effect> :=
    CheckInitCalls(WIFI_CHECK_TIMER_INTERVAL) + StatusLedInitCalls + [SetReconnectPolicy(true), SetAutoConnect(true)]

  /** The timeout handler's calls, given whether smartconfig was running and
      whether the station reported GOT_IP with a non-zero address. */
  function TimeoutCalls(wasRunning: bool, connected: bool): seq<Effect> {
    CleanupCalls(wasRunning) + FallbackCalls(connected) + RearmCalls
  }

  function StaticStartCalls(ssid: string, password: string): seq<Effect> {
    [SetStationConfig(ssid, password), Connect] + CheckInitCalls(WIFI_CHECK_TIMER_INTERVAL) + StatusLedInitCalls
  }

  const SmartconfigStartCalls: seq<Effect> :=
    [SetReconnectPolicy(false), SetAutoConnect(false)] + SmartconfigInitCalls + ConnectTimerInitCalls

  // ---------------------------------------------------------------------
  // Status LED

  /** `GPIO_REV`: drive the line to the opposite of the level read back. */
  function GpioRev(s: WifiState): Step {
    Issue(s, GpioSet(1 - s.dev.led))
  }

  /** `wifi_led_timer_cb`: low (LED on) while the station has an IP,
      otherwise toggle. Nothing but the line level changes. */
  function LedTick(s: WifiState, status: StationStatus): (r: Step)
    ensures status == StationGotIp ==> r.state.dev.led == 0
    ensures status != StationGotIp ==> r.state.dev.led != s.dev.led
    ensures r.state == s.(dev := s.dev.(led := r.state.dev.led))
    ensures r.effects == [GpioSet(r.state.dev.led)]
  {
    if status == StationGotIp then Issue(s, GpioSet(0)) else GpioRev(s)
  }

  /** `wifi_status_led_init`: (re)arms the status LED callback as a 200 ms
      repeating timer, on `g_wifi_connect_timer` rather than `g_wifi_led_timer`. */
  function StatusLedInit(s: WifiState): (r: Step)
    ensures r.state == s.(dev := s.dev.(timers := s.dev.timers.(connect := Armed(WIFI_LED_INTERVAL, true, LedCb))))
    ensures r.effects == StatusLedInitCalls
  {
    var a := Issue(s, TimerDisarm(ConnectTimer));
    Then(a, Issue(a.state, TimerArm(ConnectTimer, WIFI_LED_INTERVAL, true, LedCb)))
  }

  // ---------------------------------------------------------------------
  // Smartconfig LED and session

  /** `smartconfig_led_timer_cb`: toggles the line and nothing else. */
  function SmartconfigLedTick(s: WifiState): (r: Step)
    ensures r.state.dev.led != s.dev.led
    ensures r.state == s.(dev := s.dev.(led := r.state.dev.led))
    ensures r.effects == [GpioSet(r.state.dev.led)]
  {
    GpioRev(s)
  }

  /** `user_smartconfig_led_timer_init`: a 1000 ms repeating blink. */
  function SmartconfigLedInit(s: WifiState): (r: Step)
    ensures r.state == s.(dev := s.dev.(timers := s.dev.timers.(
                            smartconfigLed := Armed(SMARTCONFIG_LED_INTERVAL, true, SmartconfigLedCb))))
    ensures r.effects == SmartconfigLedInitCalls
  {
    var a := Issue(s, TimerDisarm(SmartconfigLedTimer));
    Then(a, Issue(a.state, TimerArm(SmartconfigLedTimer, SMARTCONFIG_LED_INTERVAL, true, SmartconfigLedCb)))
  }

  /** `user_smartconfig_led_timer_stop`. */
  function SmartconfigLedStop(s: WifiState): (r: Step)
    ensures r.state == s.(dev := s.dev.(timers := s.dev.timers.(smartconfigLed := Disarmed)))
    ensures r.effects == [TimerDisarm(SmartconfigLedTimer)]
  {
    Issue(s, TimerDisarm(SmartconfigLedTimer))
  }

  /** `user_smartconfig_init`: starts an ESPTOUCH/AirKiss session, marks it
      running and drives the line high. */
  function SmartconfigInit(s: WifiState): (r: Step)
    ensures r.state == s.(smartconfigFlag := IsRunning, dev := s.dev.(led := 1))
    ensures r.effects == SmartconfigInitCalls
  {
    var a := Issue(s, SmartconfigSetType(ScEsptouchAirkiss));
    var b := Then(a, Issue(a.state, SmartconfigStart));
    var c := Then(b, Local(b.state.(smartconfigFlag := IsRunning)));
    Then(c, Issue(c.state, GpioSet(1)))
  }

  /** The guarded stop in the connect-timeout handler: `smartconfig_stop` only
      while the flag says running, and the flag is IS_STOP afterwards. */
  function StopSmartconfigIfRunning(s: WifiState): (r: Step)
    ensures r.state == s.(smartconfigFlag := IsStop)
    ensures r.effects == StopCalls(s.smartconfigFlag == IsRunning)
  {
    if s.smartconfigFlag.IsRunning? then
      var a := Issue(s, SmartconfigStop);
      Then(a, Local(a.state.(smartconfigFlag := IsStop)))
    else
      Local(s)
  }

  // ---------------------------------------------------------------------
  // Link check

  /** `wifi_check_init`: turn the reconnect policy on, then disarm and re-arm
      the check timer one-shot at `interval`. */
  function CheckInit(s: WifiState, interval: u16): (r: Step)
    ensures r.state == s.(dev := s.dev.(reconnectPolicy := true,
                            timers := s.dev.timers.(check := Armed(interval as nat, false, CheckCb))))
    ensures r.effects == CheckInitCalls(interval as nat)
  {
    var a := Issue(s, SetReconnectPolicy(true));
    var b := Then(a, Issue(a.state, TimerDisarm(CheckTimer)));
    Then(b, Issue(b.state, TimerArm(CheckTimer, interval as nat, false, CheckCb)))
  }

  /** The period `wifi_check_timer_cb` re-arms the check with after reading
      `status`. */
  function CheckPeriod(status: StationStatus): nat {
    if status == StationGotIp then WIFI_CHECK_TIMER_INTERVAL else WIFI_CHECK_RETRY_INTERVAL
  }

  /** `wifi_check_timer_cb`: re-arms the check one-shot at 2000 ms when the
      station has an IP and at 500 ms otherwise; runs the "connected" action
      on a GOT_IP tick exactly when the edge flag was set; leaves the flag
      clear after a GOT_IP tick and set after any other; never issues a radio
      command; changes nothing else. */
  function CheckTick(s: WifiState, status: StationStatus): (r: Step)
    ensures r.state.dev.timers.check
         == Armed(CheckPeriod(status), false, CheckCb)
    ensures r.state.fromDisconnectToConnect <==> status != StationGotIp
    ensures r.effects == CheckInitCalls(CheckPeriod(status))
                         + (if status == StationGotIp && s.fromDisconnectToConnect then [ConnectedAction] else [])
    ensures r.state == s.(dev := s.dev.(reconnectPolicy := true, timers := s.dev.timers.(check := r.state.dev.timers.check)),
                          fromDisconnectToConnect := r.state.fromDisconnectToConnect)
  {
    if StationGotIp == status then
      var a := CheckInit(s, WIFI_CHECK_TIMER_INTERVAL as u16);
      if s.fromDisconnectToConnect then
        var b := Then(a, Local(a.state.(fromDisconnectToConnect := false)));
        Then(b, Step(b.state, [ConnectedAction]))
      else
        a
    else
      var a := CheckInit(s, WIFI_CHECK_RETRY_INTERVAL as u16);
      Then(a, Local(a.state.(fromDisconnectToConnect := true)))
  }

  // ---------------------------------------------------------------------
  // Connect timeout

  /** The fallback of the timeout handler: nothing if the station reports
      GOT_IP with a non-zero address, otherwise disconnect then connect. */
  function FallbackReconnect(s: WifiState, status: StationStatus): (r: Step)
    ensures r.state == s
    ensures r.effects == FallbackCalls(status == StationGotIp && s.ipAddr != 0)
  {
    if status == StationGotIp && s.ipAddr != 0 then
      Local(s)
    else
      var a := Issue(s, Disconnect);
      Then(a, Issue(a.state, Connect))
  }

  /** First half of `wifi_connect_timer_cb`: stop the timeout timer, store
      the IP read from the SDK, stop the smartconfig LED, and stop a running
      smartconfig session. */
  function TimeoutCleanup(s: WifiState, ipInfo: u32): (r: Step)
    ensures r.state == s.(dev := s.dev.(timers := s.dev.timers.(connect := Disarmed, smartconfigLed := Disarmed)),
                          smartconfigFlag := IsStop, ipAddr := ipInfo)
    ensures r.effects == CleanupCalls(s.smartconfigFlag == IsRunning)
  {
    var a := Issue(s, TimerDisarm(ConnectTimer));
    var b := Then(a, Local(a.state.(ipAddr := ipInfo)));
    var c := Then(b, SmartconfigLedStop(b.state));
    Then(c, StopSmartconfigIfRunning(c.state))
  }

  /** Last half of `wifi_connect_timer_cb`: polling at 2000 ms, the status LED
      at 200 ms, and both station switches on. */
  function TimeoutRearm(s: WifiState): (r: Step)
    ensures r.state == s.(dev := s.dev.(timers := s.dev.timers.(check := Armed(WIFI_CHECK_TIMER_INTERVAL, false, CheckCb),
                                                                connect := Armed(WIFI_LED_INTERVAL, true, LedCb)),
                                        reconnectPolicy := true, autoConnect := true))
    ensures r.effects == RearmCalls
  {
    var f := CheckInit(s, WIFI_CHECK_TIMER_INTERVAL as u16);
    var g := Then(f, StatusLedInit(f.state));
    var h := Then(g, Issue(g.state, SetReconnectPolicy(true)));
    Then(h, Issue(h.state, SetAutoConnect(true)))
  }

  /** `wifi_connect_timer_cb`, run when the 20 s smartconfig window closes.
      `ipInfo` is what `wifi_get_ip_info` returns and `status` what
      `wifi_station_get_connect_status` returns. Whatever the outcome, it
      ends with the smartconfig flag stopped, the smartconfig LED off, the
      check armed at 2000 ms, the status LED armed at 200 ms repeating, both
      station switches on, and the read address stored; the LED level and
      the edge flag are left alone. */
  function ConnectTimeout(s: WifiState, ipInfo: u32, status: StationStatus): (r: Step)
    ensures r.state.smartconfigFlag == IsStop
    ensures r.state.dev.timers.smartconfigLed == Disarmed
    ensures r.state.dev.timers.check == Armed(WIFI_CHECK_TIMER_INTERVAL, false, CheckCb)
    ensures r.state.dev.timers.connect == Armed(WIFI_LED_INTERVAL, true, LedCb)
    ensures r.state.dev.timers.led == s.dev.timers.led
    ensures r.state.dev.reconnectPolicy && r.state.dev.autoConnect
    ensures r.state.dev.led == s.dev.led
    ensures r.state.ipAddr == ipInfo
    ensures r.state.fromDisconnectToConnect == s.fromDisconnectToConnect
    ensures r.effects == TimeoutCalls(s.smartconfigFlag == IsRunning, status == StationGotIp && ipInfo != 0)
  {
    var a := TimeoutCleanup(s, ipInfo);
    var b := Then(a, FallbackReconnect(a.state, status));
    Then(b, TimeoutRearm(b.state))
  }

  // ---------------------------------------------------------------------
  // Start-up

  /** `wifi_connect_timer_init`: one 20 s one-shot timeout on `g_wifi_connect_timer`. */
  function ConnectTimerInit(s: WifiState): (r: Step)
    ensures r.state == s.(dev := s.dev.(timers := s.dev.timers.(connect := Armed(SMARTCONFIG_WAIT_TIME, false, ConnectCb))))
    ensures r.effects == ConnectTimerInitCalls
  {
    var a := Issue(s, TimerDisarm(ConnectTimer));
    Then(a, Issue(a.state, TimerArm(ConnectTimer, SMARTCONFIG_WAIT_TIME, false, ConnectCb)))
  }

  /** The `WIFI_SSID_ENABLE` branch of `wifi_connect`, after its disconnect. */
  function StartStatic(s: WifiState, ssid: string, password: string): (r: Step)
    ensures r.state == s.(dev := s.dev.(timers := s.dev.timers.(check := Armed(WIFI_CHECK_TIMER_INTERVAL, false, CheckCb),
                                                                connect := Armed(WIFI_LED_INTERVAL, true, LedCb)),
                                        reconnectPolicy := true))
    ensures r.effects == StaticStartCalls(ssid, password)
  {
    var b := Issue(s, SetStationConfig(ssid, password));
    var c := Then(b, Issue(b.state, Connect));
    var d := Then(c, CheckInit(c.state, WIFI_CHECK_TIMER_INTERVAL as u16));
    Then(d, StatusLedInit(d.state))
  }

  /** The `SMARTCONFIG_ENABLE` branch of `wifi_connect`, after its disconnect. */
  function StartSmartconfig(s: WifiState): (r: Step)
    ensures r.state == s.(dev := s.dev.(timers := s.dev.timers.(connect := Armed(SMARTCONFIG_WAIT_TIME, false, ConnectCb)),
                                        reconnectPolicy := false, autoConnect := false, led := 1),
                          smartconfigFlag := IsRunning)
    ensures r.effects == SmartconfigStartCalls
  {
    var b := Issue(s, SetReconnectPolicy(false));
    var c := Then(b, Issue(b.state, SetAutoConnect(false)));
    var d := Then(c, SmartconfigInit(c.state));
    Then(d, ConnectTimerInit(d.state))
  }

  /** `wifi_connect`: always disconnects first; then either joins with the
      static credentials and starts polling (first check at 2000 ms) and the
      status LED, or switches the station's own reconnecting off, starts
      smartconfig with the LED high and arms the 20 s timeout, or (neither
      macro) does nothing more. */
  function WifiConnect(s: WifiState, mode: Mode): (r: Step)
    ensures |r.effects| > 0 && r.effects[0] == Disconnect
    ensures r.state.ipAddr == s.ipAddr && r.state.fromDisconnectToConnect == s.fromDisconnectToConnect
    ensures r.state.dev.timers.led == s.dev.timers.led
    ensures r.state.dev.timers.smartconfigLed == s.dev.timers.smartconfigLed
    ensures mode.StaticCredentials? ==>
              && r.effects == [Disconnect] + StaticStartCalls(mode.ssid, mode.password)
              && r.state.dev.timers.check == Armed(WIFI_CHECK_TIMER_INTERVAL, false, CheckCb)
              && r.state.dev.timers.connect == Armed(WIFI_LED_INTERVAL, true, LedCb)
              && r.state.dev.reconnectPolicy
              && r.state.dev.autoConnect == s.dev.autoConnect
              && r.state.smartconfigFlag == s.smartconfigFlag
              && r.state.dev.led == s.dev.led
    ensures mode.Smartconfig? ==>
              && r.effects == [Disconnect] + SmartconfigStartCalls
              && !r.state.dev.reconnectPolicy && !r.state.dev.autoConnect
              && r.state.smartconfigFlag == IsRunning
              && r.state.dev.led == 1
              && r.state.dev.timers.connect == Armed(SMARTCONFIG_WAIT_TIME, false, ConnectCb)
              && r.state.dev.timers.check == s.dev.timers.check
    ensures mode.NoProvisioning? ==> r.state == s && r.effects == [Disconnect]
  {
    var a := Issue(s, Disconnect);
    match mode
    case StaticCredentials(ssid, password) => Then(a, StartStatic(a.state, ssid, password))
    case Smartconfig => Then(a, StartSmartconfig(a.state))
    case NoProvisioning => a
  }
}

=== FILE: wifi_properties.dfy ===
/** Properties of the handlers of `user_wifi.c` that relate their SDK calls
    to each other, or one invocation to the next. */
module WifiProperties {
  import opened Sdk
  import opened UserWifi

  // ---------------------------------------------------------------------
  // Disarm-before-arm for the building blocks

  lemma CheckInitCallsDisarmFirst(interval: nat)
    ensures DisarmsBeforeArming(CheckInitCalls(interval))
    ensures !StartsWithArm(CheckInitCalls(interval))
  {
    var c := CheckInitCalls(interval);
    assert forall i | 0 <= i < |c| && c[i].TimerArm? :: i == 2;
  }

  lemma PairDisarmFirst(t: TimerId, period: nat, repeat: bool, cb: Callback)
    ensures DisarmsBeforeArming([TimerDisarm(t), TimerArm(t, period, repeat, cb)])
  {
    var c := [TimerDisarm(t), TimerArm(t, period, repeat, cb)];
    assert forall i | 0 <= i < |c| && c[i].TimerArm? :: i == 1;
  }

  // ---------------------------------------------------------------------
  // Link check

  function ActionCalls(fire: bool): seq<Effect> {
    if fire then [ConnectedAction] else []
  }

  lemma CheckCallsFacts(interval: nat, fire: bool)
    ensures var effs := CheckInitCalls(interval) + ActionCalls(fire);
      && multiset(effs)[ConnectedAction] == (if fire then 1 else 0)
      && Disconnect !in effs && Connect !in effs
      && DisarmsBeforeArming(effs)
  {
    assert multiset(CheckInitCalls(interval))[ConnectedAction] == 0;
    CheckInitCallsDisarmFirst(interval);
    DisarmsBeforeArmingAppend(CheckInitCalls(interval), ActionCalls(fire));
  }

  /** One check tick issues no radio command, arms the check timer only
      after disarming it, and runs the "connected" action at most once:
      exactly when the station has an IP and the edge flag was set. */
  lemma CheckTickCalls(s: WifiState, status: StationStatus)
    ensures var r := CheckTick(s, status);
      && (ConnectedAction in r.effects <==> status == StationGotIp && s.fromDisconnectToConnect)
      && multiset(r.effects)[ConnectedAction]
         == (if status == StationGotIp && s.fromDisconnectToConnect then 1 else 0)
      && Disconnect !in r.effects && Connect !in r.effects
      && DisarmsBeforeArming(r.effects)
  {
    var fire := status == StationGotIp && s.fromDisconnectToConnect;
    CheckCallsFacts(CheckPeriod(status), fire);
    assert CheckTick(s, status).effects == CheckInitCalls(CheckPeriod(status)) + ActionCalls(fire);
  }

  // ---------------------------------------------------------------------
  // Connect timeout

  lemma TimeoutCallsStop(wasRunning: bool, connected: bool)
    ensures multiset(TimeoutCalls(wasRunning, connected))[SmartconfigStop] == if wasRunning then 1 else 0
  {
    assert multiset([TimerDisarm(ConnectTimer), TimerDisarm(SmartconfigLedTimer)])[SmartconfigStop] == 0;
    assert multiset(FallbackCalls(connected))[SmartconfigStop] == 0;
    assert multiset(RearmCalls)[SmartconfigStop] == 0;
    assert multiset(StopCalls(wasRunning))[SmartconfigStop] == if wasRunning then 1 else 0;
  }

  /** The timeout handler stops smartconfig exactly when the running flag was
      set, and leaves the flag stopped. */
  lemma ConnectTimeoutStopsRunningSmartconfig(s: WifiState, ipInfo: u32, status: StationStatus)
    ensures var r := ConnectTimeout(s, ipInfo, status);
      && multiset(r.effects)[SmartconfigStop] == (if s.smartconfigFlag == IsRunning then 1 else 0)
      && (SmartconfigStop in r.effects <==> s.smartconfigFlag == IsRunning)
      && r.state.smartconfigFlag == IsStop
  {
    TimeoutCallsStop(s.smartconfigFlag == IsRunning, status == StationGotIp && ipInfo != 0);
  }

  /** A second timeout after the first issues no further `smartconfig_stop`. */
  lemma ConnectTimeoutStopIsIdempotent(s: WifiState, ip1: u32, st1: StationStatus, ip2: u32, st2: StationStatus)
    ensures var r1 := ConnectTimeout(s, ip1, st1);
      SmartconfigStop !in ConnectTimeout(r1.state, ip2, st2).effects
  {
    var r1 := ConnectTimeout(s, ip1, st1);
    ConnectTimeoutStopsRunningSmartconfig(r1.state, ip2, st2);
  }

  lemma TimeoutCallsFallback(wasRunning: bool, connected: bool)
    ensures var effs := TimeoutCalls(wasRunning, connected);
      && (Disconnect in effs <==> !connected)
      && (Connect in effs <==> !connected)
      && (!connected ==> Before(effs, Disconnect, Connect))
  {
    var x := CleanupCalls(wasRunning);
    assert Disconnect !in x && Connect !in x;
    assert Disconnect !in RearmCalls && Connect !in RearmCalls;
    if !connected {
      assert [Disconnect] + [Connect] == FallbackCalls(connected);
      BeforeAppend([Disconnect], [Connect], Disconnect, Connect);
      BeforeFrame(x, FallbackCalls(connected), RearmCalls, Disconnect, Connect);
    }
  }

  /** The fallback reconnect is issued, disconnect before connect, exactly
      when the station does not report GOT_IP with a non-zero address;
      otherwise no radio command at all. */
  lemma ConnectTimeoutFallback(s: WifiState, ipInfo: u32, status: StationStatus)
    ensures var r := ConnectTimeout(s, ipInfo, status);
      && (Disconnect in r.effects <==> !(status == StationGotIp && ipInfo != 0))
      && (Connect in r.effects <==> !(status == StationGotIp && ipInfo != 0))
      && (!(status == StationGotIp && ipInfo != 0) ==> Before(r.effects, Disconnect, Connect))
  {
    TimeoutCallsFallback(s.smartconfigFlag == IsRunning, status == StationGotIp && ipInfo != 0);
  }

  lemma TimeoutCallsOrdering(wasRunning: bool, connected: bool)
    ensures var effs := TimeoutCalls(wasRunning, connected);
      && Before(effs, TimerDisarm(SmartconfigLedTimer), TimerArm(ConnectTimer, WIFI_LED_INTERVAL, true, LedCb))
      && Before(effs, TimerDisarm(SmartconfigLedTimer), TimerArm(CheckTimer, WIFI_CHECK_TIMER_INTERVAL, false, CheckCb))
      && DisarmsBeforeArming(effs)
      && effs[|effs| - 2..] == [SetReconnectPolicy(true), SetAutoConnect(true)]
  {
    var x := CleanupCalls(wasRunning) + FallbackCalls(connected);
    var stopLed := TimerDisarm(SmartconfigLedTimer);
    assert stopLed in x && stopLed !in RearmCalls;
    BeforeAppend(x, RearmCalls, stopLed, TimerArm(ConnectTimer, WIFI_LED_INTERVAL, true, LedCb));
    BeforeAppend(x, RearmCalls, stopLed, TimerArm(CheckTimer, WIFI_CHECK_TIMER_INTERVAL, false, CheckCb));
    assert DisarmsBeforeArming(x);
    CheckInitCallsDisarmFirst(WIFI_CHECK_TIMER_INTERVAL);
    PairDisarmFirst(ConnectTimer, WIFI_LED_INTERVAL, true, LedCb);
    DisarmsBeforeArmingAppend(CheckInitCalls(WIFI_CHECK_TIMER_INTERVAL), StatusLedInitCalls);
    DisarmsBeforeArmingAppend(CheckInitCalls(WIFI_CHECK_TIMER_INTERVAL) + StatusLedInitCalls, [SetReconnectPolicy(true), SetAutoConnect(true)]);
    DisarmsBeforeArmingAppend(x, RearmCalls);
    assert (x + RearmCalls)[|x + RearmCalls| - 2..] == RearmCalls[5..];
  }

  /** Whatever branch it takes, the timeout handler stops the smartconfig LED
      before it arms the status LED or the check, every arm follows a disarm
      of the same timer, and its last two calls switch reconnecting and
      auto-connect on. */
  lemma ConnectTimeoutOrdering(s: WifiState, ipInfo: u32, status: StationStatus)
    ensures var r := ConnectTimeout(s, ipInfo, status);
      && Before(r.effects, TimerDisarm(SmartconfigLedTimer), TimerArm(ConnectTimer, WIFI_LED_INTERVAL, true, LedCb))
      && Before(r.effects, TimerDisarm(SmartconfigLedTimer), TimerArm(CheckTimer, WIFI_CHECK_TIMER_INTERVAL, false, CheckCb))
      && DisarmsBeforeArming(r.effects)
      && r.effects[|r.effects| - 2..] == [SetReconnectPolicy(true), SetAutoConnect(true)]
  {
    TimeoutCallsOrdering(s.smartconfigFlag == IsRunning, status == StationGotIp && ipInfo != 0);
  }

  // ---------------------------------------------------------------------
  // Start-up

  lemma StaticCallsOrdering(ssid: string, password: string)
    ensures var effs := [Disconnect] + StaticStartCalls(ssid, password);
      && Before(effs, Disconnect, SetStationConfig(ssid, password))
      && Before(effs, SetStationConfig(ssid, password), Connect)
      && Before(effs, Connect, TimerArm(CheckTimer, WIFI_CHECK_TIMER_INTERVAL, false, CheckCb))
      && Before(effs, TimerArm(CheckTimer, WIFI_CHECK_TIMER_INTERVAL, false, CheckCb), TimerArm(ConnectTimer, WIFI_LED_INTERVAL, true, LedCb))
      && DisarmsBeforeArming(effs)
  {
    var cfg := SetStationConfig(ssid, password);
    var armCheck := TimerArm(CheckTimer, WIFI_CHECK_TIMER_INTERVAL, false, CheckCb);
    var armLed := TimerArm(ConnectTimer, WIFI_LED_INTERVAL, true, LedCb);
    var rest := CheckInitCalls(WIFI_CHECK_TIMER_INTERVAL) + StatusLedInitCalls;
    var effs := [Disconnect] + StaticStartCalls(ssid, password);
    assert effs == [Disconnect, cfg, Connect] + rest;
    assert Before(effs, Disconnect, cfg) by {
      BeforeAppend([Disconnect], [cfg, Connect] + rest, Disconnect, cfg);
      assert effs == [Disconnect] + ([cfg, Connect] + rest);
    }
    assert Before(effs, cfg, Connect) by {
      BeforeAppend([Disconnect, cfg], [Connect] + rest, cfg, Connect);
      assert effs == [Disconnect, cfg] + ([Connect] + rest);
    }
    assert Before(effs, Connect, armCheck) by {
      BeforeAppend([Disconnect, cfg, Connect], rest, Connect, armCheck);
    }
    assert Before(effs, armCheck, armLed) by {
      BeforeAppend([Disconnect, cfg, Connect] + CheckInitCalls(WIFI_CHECK_TIMER_INTERVAL), StatusLedInitCalls, armCheck, armLed);
      assert effs == [Disconnect, cfg, Connect] + CheckInitCalls(WIFI_CHECK_TIMER_INTERVAL) + StatusLedInitCalls;
    }
    assert DisarmsBeforeArming(effs) by {
      assert DisarmsBeforeArming([Disconnect, cfg, Connect]);
      CheckInitCallsDisarmFirst(WIFI_CHECK_TIMER_INTERVAL);
      PairDisarmFirst(ConnectTimer, WIFI_LED_INTERVAL, true, LedCb);
      DisarmsBeforeArmingAppend([Disconnect, cfg, Connect], CheckInitCalls(WIFI_CHECK_TIMER_INTERVAL));
      DisarmsBeforeArmingAppend([Disconnect, cfg, Connect] + CheckInitCalls(WIFI_CHECK_TIMER_INTERVAL), StatusLedInitCalls);
      assert effs == [Disconnect, cfg, Connect] + CheckInitCalls(WIFI_CHECK_TIMER_INTERVAL) + StatusLedInitCalls;
    }
  }

  /** Static-credentials start: disconnect, configure, connect, then arm the
      check at 2000 ms and the status LED at 200 ms, in that order. */
  lemma StaticStartOrdering(s: WifiState, ssid: string, password: string)
    ensures var r := WifiConnect(s, StaticCredentials(ssid, password));
      && Before(r.effects, Disconnect, SetStationConfig(ssid, password))
      && Before(r.effects, SetStationConfig(ssid, password), Connect)
      && Before(r.effects, Connect, TimerArm(CheckTimer, WIFI_CHECK_TIMER_INTERVAL, false, CheckCb))
      && Before(r.effects, TimerArm(CheckTimer, WIFI_CHECK_TIMER_INTERVAL, false, CheckCb), TimerArm(ConnectTimer, WIFI_LED_INTERVAL, true, LedCb))
      && DisarmsBeforeArming(r.effects)
  {
    StaticCallsOrdering(ssid, password);
  }

  /** `wifi_connect`'s calls in smartconfig mode, up to the timeout timer. */
  const SmartconfigHead: seq<Effect> :=
    [Disconnect, SetReconnectPolicy(false), SetAutoConnect(false),
     SmartconfigSetType(ScEsptouchAirkiss), SmartconfigStart, GpioSet(1)]

  lemma SmartconfigCallsSplit()
    ensures [Disconnect] + SmartconfigStartCalls == SmartconfigHead + ConnectTimerInitCalls
  {
  }

  /** `Before` between two entries of the head block, given the cut that
      separates them inside it. */
  lemma SmartconfigHeadBefore(k: nat, a: Effect, b: Effect)
    requires 0 < k < 6
    requires a in SmartconfigHead[..k] && a !in SmartconfigHead[k..] + ConnectTimerInitCalls
    requires b in SmartconfigHead[k..] && b !in SmartconfigHead[..k]
    ensures Before([Disconnect] + SmartconfigStartCalls, a, b)
  {
    var h := SmartconfigHead;
    SmartconfigCallsSplit();
    assert h + ConnectTimerInitCalls == h[..k] + (h[k..] + ConnectTimerInitCalls);
    BeforeAppend(h[..k], h[k..] + ConnectTimerInitCalls, a, b);
  }

  lemma SmartconfigCallsOrdering()
    ensures var effs := [Disconnect] + SmartconfigStartCalls;
      && Before(effs, Disconnect, SetReconnectPolicy(false))
      && Before(effs, SetReconnectPolicy(false), SetAutoConnect(false))
      && Before(effs, SetAutoConnect(false), SmartconfigStart)
      && Before(effs, SmartconfigStart, GpioSet(1))
  {
    var h := SmartconfigHead;
    var effs := [Disconnect] + SmartconfigStartCalls;
    assert Before(effs, Disconnect, SetReconnectPolicy(false)) by {
      assert h[..1] == [Disconnect];
      assert h[1..] == [SetReconnectPolicy(false), SetAutoConnect(false), SmartconfigSetType(ScEsptouchAirkiss), SmartconfigStart, GpioSet(1)];
      SmartconfigHeadBefore(1, Disconnect, SetReconnectPolicy(false));
    }
    assert Before(effs, SetReconnectPolicy(false), SetAutoConnect(false)) by {
      assert h[..2] == [Disconnect, SetReconnectPolicy(false)];
      assert h[2..] == [SetAutoConnect(false), SmartconfigSetType(ScEsptouchAirkiss), SmartconfigStart, GpioSet(1)];
      SmartconfigHeadBefore(2, SetReconnectPolicy(false), SetAutoConnect(false));
    }
    assert Before(effs, SetAutoConnect(false), SmartconfigStart) by {
      assert h[..3] == [Disconnect, SetReconnectPolicy(false), SetAutoConnect(false)];
      assert h[3..] == [SmartconfigSetType(ScEsptouchAirkiss), SmartconfigStart, GpioSet(1)];
      SmartconfigHeadBefore(3, SetAutoConnect(false), SmartconfigStart);
    }
    assert Before(effs, SmartconfigStart, GpioSet(1)) by {
      assert h[..5] == [Disconnect, SetReconnectPolicy(false), SetAutoConnect(false), SmartconfigSetType(ScEsptouchAirkiss), SmartconfigStart];
      assert h[5..] == [GpioSet(1)];
      SmartconfigHeadBefore(5, SmartconfigStart, GpioSet(1));
    }
  }

  lemma SmartconfigCallsTimeout()
    ensures var effs := [Disconnect] + SmartconfigStartCalls;
      && Before(effs, GpioSet(1), TimerArm(ConnectTimer, SMARTCONFIG_WAIT_TIME, false, ConnectCb))
      && multiset(effs)[TimerArm(ConnectTimer, SMARTCONFIG_WAIT_TIME, false, ConnectCb)] == 1
      && DisarmsBeforeArming(effs)
  {
    var h := SmartconfigHead;
    var armTimeout := TimerArm(ConnectTimer, SMARTCONFIG_WAIT_TIME, false, ConnectCb);
    SmartconfigCallsSplit();
    assert armTimeout !in h;
    BeforeAppend(h, ConnectTimerInitCalls, GpioSet(1), armTimeout);
    assert multiset(h)[armTimeout] == 0;
    assert multiset(ConnectTimerInitCalls)[armTimeout] == 1;
    assert multiset(h + ConnectTimerInitCalls) == multiset(h) + multiset(ConnectTimerInitCalls);
    assert forall i | 0 <= i < |h| :: !h[i].TimerArm?;
    PairDisarmFirst(ConnectTimer, SMARTCONFIG_WAIT_TIME, false, ConnectCb);
    DisarmsBeforeArmingAppend(h, ConnectTimerInitCalls);
  }

  /** Smartconfig start: disconnect, switch reconnecting and auto-connect off,
      start the session, drive the LED high, then arm one 20 s one-shot
      timeout, in that order. */
  lemma SmartconfigStartOrdering(s: WifiState)
    ensures var r := WifiConnect(s, Smartconfig);
      && Before(r.effects, Disconnect, SetReconnectPolicy(false))
      && Before(r.effects, SetReconnectPolicy(false), SetAutoConnect(false))
      && Before(r.effects, SetAutoConnect(false), SmartconfigStart)
      && Before(r.effects, SmartconfigStart, GpioSet(1))
      && Before(r.effects, GpioSet(1), TimerArm(ConnectTimer, SMARTCONFIG_WAIT_TIME, false, ConnectCb))
      && multiset(r.effects)[TimerArm(ConnectTimer, SMARTCONFIG_WAIT_TIME, false, ConnectCb)] == 1
      && DisarmsBeforeArming(r.effects)
  {
    SmartconfigCallsOrdering();
    SmartconfigCallsTimeout();
  }
}
